=== FILE: README.md ===
# Loan marketplace registries: a Dafny model

This project models the two registries of a loan-marketplace backend (an
Express and Mongoose service):

- the **loan-application registry**. It covers the `LoanApplication` document
  (required `loan` and `borrower` references, the closed `status` and
  `applicationFeeStatus` enumerations with their defaults, and automatic
  timestamps) and the handlers that apply for a loan, approve an application,
  reject it, and record an application-fee payment;
- the **loan-product registry**. It covers the `Loan` document (required
  `title`, `showOnHome` defaulting to false, ordered `emiPlans` and `images`,
  and timestamps) and the handlers that create a loan, list loans newest
  first, update by merge, delete, and fetch by id.

Each collection is a finite `map<Id, Document>`. Each request handler that
may write is a pure function from the collection and the request to a
`Reply`: the collection afterwards plus a `Response`. The read-only fetch by
id returns only a `Response`, and the listing is a method that returns the
listed entries. A `Response` is
`Ok`, `NotFound`, `Invalid(paths)` (a Mongoose validation error), `DuplicateKey`
or `ProviderFailed`. The wall clock, the fresh ObjectId of an insert, and the
payment provider's answer are all parameters.

Modules, in dependency order:

| file | module | models |
|---|---|---|
| common.dfy | `Common` | ids, timestamps, `Option`, `Response`, `Reply`, the frame predicate `AgreeExcept` |
| application_model.dfy | `ApplicationModel` | the `LoanApplication` schema: enums, validation, creation, `save()` |
| application_controller.dfy | `ApplicationController` | `applyLoan`, `approveApplication`, `rejectApplication`, `payApplicationFee` |
| application_lifecycle.dfy | `ApplicationLifecycle` | arbitrary request sequences and what they preserve |
| loan_model.dfy | `LoanModel` | the `Loan` schema: validation, defaults, merge updates |
| loan_controller.dfy | `LoanController` | `addLoan`, `getAllLoans`, `updateLoan`, `deleteLoan`, `getLoanById` |

Mongoose behaviour that the handlers rely on is modelled explicitly:

- Strict mode discards plain keys (keys without a `$` prefix) that are not schema paths. This is why the `user` key that `applyLoan` writes never reaches the document.
- A `required` String path rejects both a missing value and the empty string.
- An enum validator runs only on a supplied value. The default fills an absent one.
- `document.save()` refreshes `updatedAt` only when some path was actually modified.
- `findByIdAndUpdate` refreshes `updatedAt` unconditionally and runs no validators.

The handlers themselves are simple:

- Statuses are capitalised (`Pending`, `Approved`, `Rejected`).
- Approve and reject never look at the current status.
- Reject records no rejection instant.
- No handler checks a role or ownership.
- No application handler removes a record.

## Model

| member | source | states |
|---|---|---|
| ApplicationModel.ParseStatus | models/LoanApplication.js:16 | a string accepted by the `status` enum validator is the stored name of the status it yields |
| ApplicationModel.ParseFeeStatus | models/LoanApplication.js:17 | a string accepted by the `applicationFeeStatus` enum validator is the stored name of the fee status it yields |
| ApplicationModel.StatusEnumIsClosed | models/LoanApplication.js:16 | the validator accepts exactly "Pending", "Approved", "Rejected", and name and parse are inverse |
| ApplicationModel.FeeStatusEnumIsClosed | models/LoanApplication.js:17 | the validator accepts exactly "Paid", "Unpaid", and name and parse are inverse |
| ApplicationModel.ValidationErrors | models/LoanApplication.js:3-17 | a path is reported exactly when its validator fails: `loan` or `borrower` missing, or an enum value outside its enum; for a well-typed body no other path is reported |
| ApplicationModel.Instantiate | models/LoanApplication.js:3-21 | creation fails exactly when validation fails, naming the failing paths; on success status defaults to Pending and fee status to Unpaid when absent, supplied values are kept, and createdAt = updatedAt = now |
| ApplicationModel.Save | models/LoanApplication.js:21 | save keeps every assigned path and createdAt, and refreshes updatedAt only when some other path changed |
| ApplicationController.ApplyLoan | controllers/loanApplicationController.js:5-16 | creation from the body: invalid exactly when `loanId` or `borrower` is missing or an enum value is bad, reporting exactly the failing paths, with no record added; on success exactly one record is added under the fresh id: the document the schema builds from the body, with loan from `loanId`, borrower, applicant paths, supplied status and fee status (or their defaults), approvedAt, paidAt and paymentDetails all from the body, and both timestamps now |
| ApplicationController.LoanKeyAloneIsRefused | controllers/loanApplicationController.js:7-11 | a body naming its loan under `loan` but not `loanId` is refused with `loan` reported, because `loan` is overwritten by the missing `loanId` |
| ApplicationController.ApplyIgnoresCallerAndLoanKey | controllers/loanApplicationController.js:7-11 | the outcome depends neither on the caller nor on a `loan` key in the body |
| ApplicationController.ApplicantIsNotRecorded | controllers/loanApplicationController.js:9 | as written, an authenticated caller naming a valid loan but no `borrower` is refused with exactly `borrower` reported; the corrected handler accepts it and records the caller |
| ApplicationController.ApplyLoanAsIntended | controllers/loanApplicationController.js:7-11 | corrected creation: never reports `borrower`, fails only on a missing `loanId` or bad enum value, a refusal adds no record, and on success exactly one record is added under the fresh id with the caller as borrower |
| ApplicationController.ApproveApplication | controllers/loanApplicationController.js:31-42 | a missing id yields NotFound and an unchanged collection; otherwise, whatever the current status, status = Approved, approvedAt = now, and the applicant paths, fee status, paidAt, paymentDetails and every other record are unchanged; a document already approved at that instant is returned as it was, and otherwise updatedAt = now |
| ApplicationController.RejectApplication | controllers/loanApplicationController.js:45-55 | a missing id yields NotFound and an unchanged collection; otherwise status = Rejected, approvedAt is kept, no rejection instant is written, and nothing else changes; an already rejected record is returned as it was |
| ApplicationController.PayApplicationFee | controllers/loanApplicationController.js:58-81 | a provider failure writes nothing; otherwise the client secret is returned whether or not the application exists; an existing application gets fee status Paid and details {intent id, caller email, amount}, with paidAt, status, approvedAt and the applicant paths kept; a document already paid with the same details is returned as it was, and otherwise updatedAt = now |
| ApplicationController.BodyMaySetDecisionAndFee | controllers/loanApplicationController.js:7-11 | a body carrying status "Approved" and fee status "Paid" creates an application that is already approved and paid, with the body's payment details |
| ApplicationController.DecisionsCanBeReversed | controllers/loanApplicationController.js:33-50 | a rejected application can be approved, and an approved one rejected while its approvedAt is kept |
| ApplicationController.RejectIsIdempotent | controllers/loanApplicationController.js:47-51 | rejecting again at any instant returns the same reply and collection as the first rejection |
| ApplicationController.ApproveIsIdempotentAtOneInstant | controllers/loanApplicationController.js:33-38 | approving again at the same instant returns the same reply and collection |
| ApplicationController.RepaymentReplacesDetails | controllers/loanApplicationController.js:66-75 | a second payment is not refused: it replaces the recorded transaction with the new intent's and the fee stays Paid |
| ApplicationLifecycle.WrittenApplyIsCovered | controllers/loanApplicationController.js:7-11 | every collection the written `applyLoan` produces is produced by the corrected handler for some caller and body |
| ApplicationLifecycle.StepPersists | controllers/loanApplicationController.js:5-81 | one request of any kind, either creation handler included, keeps every record, with the same applicant paths, createdAt and paidAt; Paid stays Paid, and a set approvedAt stays set |
| ApplicationLifecycle.RunPersists | controllers/loanApplicationController.js:5-81 | the same preservation holds across any finite sequence of requests |
| ApplicationLifecycle.PaidStaysPaid | controllers/loanApplicationController.js:68 | no handler assigns Unpaid: a paid application is still present and paid after any request sequence |
| ApplicationLifecycle.OnlyPaymentMarksPaid | controllers/loanApplicationController.js:66-75 | an application already stored unpaid stays unpaid through any request sequence without a payment naming it |
| LoanModel.Instantiate | models/Loan.js:3-13 | creation fails with `title` reported exactly when title is missing or empty; on success the supplied paths are kept, showOnHome defaults to false, the arrays default to empty, optional paths stay unset, and createdAt = updatedAt = now |
| LoanModel.Merge | controllers/loanController.js:26 | an update overwrites exactly the supplied paths, keeps every other path and createdAt, and sets updatedAt = now |
| LoanModel.MergeComposes | controllers/loanController.js:26 | two successive updates equal one update by the combined patch, where later paths win |
| LoanModel.MergeIsIdempotent | controllers/loanController.js:26 | repeating an update at the same instant changes nothing further |
| LoanModel.EmptyPatchTouchesOnlyUpdatedAt | controllers/loanController.js:26 | an update supplying no path changes only updatedAt |
| LoanModel.InstantiateThenMerge | models/Loan.js:3-13 | creating and then updating equals creating from the combined paths, apart from updatedAt |
| LoanController.AddLoan | controllers/loanController.js:4-11 | invalid exactly when title is missing or empty, with no record added; on success exactly one record is added under the fresh id: the document the schema builds from the body, with title, description, category, interest and maxLimit from the body, emiPlans and images from the body or empty, showOnHome from the body or false, createdBy = the caller's id whatever the body says, and both timestamps now |
| LoanController.GetLoanById | controllers/loanController.js:44-52 | NotFound exactly when the id is absent; otherwise the stored record unchanged |
| LoanController.UpdateLoan | controllers/loanController.js:24-31 | always Ok; for a missing id the answer is null and the collection is unchanged (no 404); otherwise only that record changes, its supplied paths are overwritten and the others kept, and the answer is the record after the update |
| LoanController.DeleteLoan | controllers/loanController.js:34-41 | always Ok; exactly the given id is removed, and every other record is kept |
| LoanController.InsertNewestFirst | controllers/loanController.js:16 | inserting into a listing sorted by createdAt descending keeps it sorted, and the result is the input plus exactly the new entry, as multisets |
| LoanController.InsertKeepsIdsDistinct | controllers/loanController.js:16 | inserting an unlisted id keeps every id listed at most once |
| LoanController.GetAllLoans | controllers/loanController.js:14-21 | the listing holds every stored loan exactly once with its id and stored document, ordered by createdAt descending |
| LoanController.AddThenGet | controllers/loanController.js:4-52 | a created loan is fetched back unchanged under its new id |
| LoanController.UpdateThenGet | controllers/loanController.js:24-52 | fetching after an update returns the document the update answered |
| LoanController.DeleteIsIdempotent | controllers/loanController.js:34-52 | after a delete the id is not found, and a second delete by anyone leaves the same collection and answer |
| LoanController.UpdateSkipsValidation | controllers/loanController.js:26 | an update can store an empty title that creation refuses |
| LoanController.AnyCallerMayChangeAnyLoan | controllers/loanController.js:24-41 | update and delete give the same outcome whoever the caller is |

## Findings

| source | as written | input that shows it | evidently intended | confidence | as-written member | corrected member |
|---|---|---|---|---|---|---|
| controllers/loanApplicationController.js:9 | the applicant's id is written to `user`, which is not a schema path, so strict mode drops it, while the schema requires `borrower` | an authenticated caller posts a body with a `loanId` and no `borrower`: the request fails validation on `borrower` and nothing is stored | the caller's id is stored as `borrower` | high; not executed | ApplicationController.ApplicantIsNotRecorded | ApplicationController.ApplyLoanAsIntended |

`ApplyLoan` models the handler as written. The request sequences of
`ApplicationLifecycle` may mix the written handler (`Apply`) with the
corrected one (`ApplyCorrected`), so their lemmas are proved for both.

## Left out

- `getAllApplications`: not modelled. Its only content is a database query with two `populate` joins, one of them through a `user` path the schema does not have, and it returns documents in unspecified natural order.
- The payment provider call is a parameter. `PayApplicationFee` receives the created intent (id and client secret), or `None` when the call threw. The amount and currency sent to the provider are not modelled.
- The wall clock is a parameter: one instant per request. It serves both `approvedAt` and the timestamps, although the source reads the clock more than once.
- ObjectIds are typed. A malformed id string in the URL or body, which Mongoose reports as a cast error, is not modelled. The database's choice of a fresh id is a parameter, and a clash is reported as `DuplicateKey`.
- `interest`, `maxLimit`, `monthlyIncome` and `amount` are JavaScript numbers. They are modelled as integers: floating point is out of scope.
- Plain body keys (keys without a `$` prefix) that are not schema paths are not part of the body types. Strict mode discards them. A body's own `createdAt`, `updatedAt` or `_id` is not modelled.
- AddLoan: cast failures on paths other than ids are not modelled. The body types hold only well-typed values. In the source, a value Mongoose cannot cast to the path's type (`"interest": "abc"`, a non-boolean `showOnHome`, an object where a String or an array is expected) adds that path to the ValidationError of `create`. So the claim that `title` is the only path ever reported holds only for well-typed bodies.
- ApplyLoan: cast failures on paths other than ids are not modelled. In the source, an uncastable `monthlyIncome` (`"lots"`), an uncastable `approvedAt` or `paidAt` date, or an object where a String is expected adds that path to the ValidationError of `create`. So the reported paths are exactly those of `ValidationErrors` only for well-typed bodies.
- UpdateLoan: cast failures are not modelled. In the source, a patch value that cannot be cast to its path's type makes `findByIdAndUpdate` throw a CastError before anything is written, and the handler answers 500. So "always Ok" holds only for well-typed patches.
- UpdateLoan: update operators in the body are not modelled. The body goes straight to `findByIdAndUpdate`, which passes `$`-prefixed keys such as `$unset`, `$inc` or `$push` through as operators that strict mode does not discard. With no validator running, `{"$unset": {"title": 1}}` would leave a loan with no title, which the `Loan` type (a `title: string`) cannot represent. The model covers only plain-key bodies, whose keys are wrapped in `$set`.
- UpdateLoan: a `null` in an update patch is not modelled. It would unset a path. A patch path is either supplied, which overwrites, or absent, which keeps.
- ApplyLoan: an explicit `null` in a creation body is not modelled. Mongoose applies a default only to an absent value, so `"status": null` or `"applicationFeeStatus": null` would store no status rather than `Pending` or `Unpaid`. The enum types `Status` and `FeeStatus` (and hence the closed-enum invariant) assume that no `null` reaches the document.
- AddLoan: an explicit `null` in a creation body is not modelled. For example, `"showOnHome": null` would store no value rather than the default `false`, and the `bool` type assumes that no `null` reaches the document.
- `paymentDetails` is an untyped object in the schema. It is modelled as the fixed triple the payment handler writes.
- HTTP status codes, JSON shaping, and the 500 passthrough of unexpected errors are not modelled. So are database and network failures.
- Concurrent requests are not modelled. Every request is handled atomically and in sequence, so read-then-write races are not represented.
- The route wiring, the authentication middleware (not part of this model), and the server start-up are not modelled. The caller is a parameter that the middleware is assumed to have set.

=== FILE: application_controller.dfy ===
/** The loan-application request handlers as pure functions from the
    collection and the request to the collection afterwards and the response:
    applying for a loan, approving, rejecting, and recording a fee payment. */
module ApplicationController {
  import opened Common
  import opened ApplicationModel

  /** The `loanapplications` collection. */
  type Applications = map<Id, Application>

  /** The request body of an application, restricted to the keys that can
      reach the document: the schema's paths plus `loanId`. */
  datatype ApplicationBody = ApplicationBody(
    loanId: Option<Id>,
    loan: Option<Id>,
    borrower: Option<Id>,
    info: ApplicantInfo,
    status: Option<string>,
    applicationFeeStatus: Option<string>,
    approvedAt: Option<Timestamp>,
    paidAt: Option<Timestamp>,
    paymentDetails: Option<PaymentDetails>)

  /** The payment intent the provider returns: its id and client secret. */
  datatype PaymentIntent = PaymentIntent(id: string, clientSecret: string)

  /** The paths an applicant supplies at creation and no handler changes. */
  predicate SameApplicant(a: Application, b: Application) {
    && a.loan == b.loan
    && a.borrower == b.borrower
    && a.info == b.info
    && a.createdAt == b.createdAt
  }

  /** The paths the fee payment handler writes. */
  predicate SameFee(a: Application, b: Application) {
    && a.applicationFeeStatus == b.applicationFeeStatus
    && a.paidAt == b.paidAt
    && a.paymentDetails == b.paymentDetails
  }

  /** The document `applyLoan` asks Mongoose to create: the body spread, then
      `user` set to the caller (a path the schema lacks, so strict mode
      drops it) and `loan` overwritten with the body's `loanId`. */
  function DraftOf(body: ApplicationBody, caller: Caller): Draft {
    Draft(body.loanId, body.borrower, body.info, body.status, body.applicationFeeStatus,
          body.approvedAt, body.paidAt, body.paymentDetails)
  }

  /** `applyLoan`: validate and insert a new application under the fresh
      ObjectId `newId`. The borrower is taken only from the body, the loan
      only from the body's `loanId`; the caller is not recorded. */
  function ApplyLoan(apps: Applications, newId: Id, body: ApplicationBody, caller: Caller,
                     now: Timestamp): (r: Reply<Applications, Application>)
    ensures r.response.Ok? || r.response.Invalid? || r.response.DuplicateKey?
    ensures !r.response.Ok? ==> r.store == apps
    ensures r.response.Invalid? <==>
              (body.loanId.None? || body.borrower.None?
               || (body.status.Some? && ParseStatus(body.status.value).None?)
               || (body.applicationFeeStatus.Some?
                   && ParseFeeStatus(body.applicationFeeStatus.value).None?))
    ensures r.response.Invalid? ==> r.response.paths == ValidationErrors(DraftOf(body, caller))
    ensures r.response.DuplicateKey? ==> newId in apps
    ensures r.response.Ok? ==> Instantiate(DraftOf(body, caller), now) == Ok(r.response.value)
    ensures r.response.Ok? ==>
              && newId !in apps
              && r.store == apps[newId := r.response.value]
              && Some(r.response.value.loan) == body.loanId
              && Some(r.response.value.borrower) == body.borrower
              && r.response.value.info == body.info
              && (body.status.None? ==> r.response.value.status == Pending)
              && (body.status.Some? ==> StatusName(r.response.value.status) == body.status.value)
              && (body.applicationFeeStatus.None? ==> r.response.value.applicationFeeStatus == Unpaid)
              && (body.applicationFeeStatus.Some? ==>
                    FeeStatusName(r.response.value.applicationFeeStatus) == body.applicationFeeStatus.value)
              && r.response.value.approvedAt == body.approvedAt
              && r.response.value.paidAt == body.paidAt
              && r.response.value.paymentDetails == body.paymentDetails
              && r.response.value.createdAt == now
              && r.response.value.updatedAt == now
  {
    var created := Instantiate(DraftOf(body, caller), now);
    if !created.Ok? then Reply(apps, Invalid(created.paths))
    else if newId in apps then Reply(apps, DuplicateKey)
    else Reply(apps[newId := created.value], Ok(created.value))
  }

  /** `applyLoan` as its authors evidently meant it: the caller's id goes
      into the schema's `borrower` path, overriding any `borrower` in the
      body, so an authenticated applicant is always recorded and a body
      need only name its loan. */
  function ApplyLoanAsIntended(apps: Applications, newId: Id, body: ApplicationBody, caller: Caller,
                               now: Timestamp): (r: Reply<Applications, Application>)
    ensures r.response.Invalid? <==>
              (body.loanId.None?
               || (body.status.Some? && ParseStatus(body.status.value).None?)
               || (body.applicationFeeStatus.Some?
                   && ParseFeeStatus(body.applicationFeeStatus.value).None?))
    ensures r.response.Ok? || r.response.Invalid? || r.response.DuplicateKey?
    ensures !r.response.Ok? ==> r.store == apps
    ensures r.response.Invalid? ==> "borrower" !in r.response.paths
    ensures r.response.Ok? ==>
              && newId !in apps
              && r.store == apps[newId := r.response.value]
              && r.response.value.borrower == caller.id
              && Some(r.response.value.loan) == body.loanId
  {
    ApplyLoan(apps, newId, body.(borrower := Some(caller.id)), caller, now)
  }

  /** As written, `applyLoan` refuses an authenticated applicant who names a
      valid loan but does not repeat their own id as `borrower` in the body;
      the intended handler accepts the same request and records the caller. */
  lemma ApplicantIsNotRecorded(apps: Applications, newId: Id, body: ApplicationBody, caller: Caller,
                               now: Timestamp)
    requires newId !in apps
    requires body.loanId.Some? && body.borrower.None?
    requires body.status.None? && body.applicationFeeStatus.None?
    ensures ApplyLoan(apps, newId, body, caller, now) == Reply(apps, Invalid({"borrower"}))
    ensures ApplyLoanAsIntended(apps, newId, body, caller, now).response.Ok?
    ensures ApplyLoanAsIntended(apps, newId, body, caller, now).response.value.borrower == caller.id
  {
    assert ValidationErrors(DraftOf(body, caller)) == {"borrower"};
  }

  /** `approveApplication`: a missing id is a 404 with no change; otherwise
      the status becomes `Approved` and `approvedAt` becomes `now`, whatever
      the current status, and nothing else in the collection changes. */
  function ApproveApplication(apps: Applications, id: Id, now: Timestamp)
    : (r: Reply<Applications, Application>)
    ensures r.response.Ok? || r.response.NotFound?
    ensures r.response.NotFound? <==> id !in apps
    ensures r.response.NotFound? ==> r.store == apps
    ensures r.response.Ok? ==>
              && r.store == apps[id := r.response.value]
              && r.response.value.status == Approved
              && r.response.value.approvedAt == Some(now)
              && SameApplicant(apps[id], r.response.value)
              && SameFee(apps[id], r.response.value)
              && (apps[id].status == Approved && apps[id].approvedAt == Some(now) ==>
                    r.response.value == apps[id])
              && (apps[id].status != Approved || apps[id].approvedAt != Some(now) ==>
                    r.response.value.updatedAt == now)
  {
    if id !in apps then Reply(apps, NotFound)
    else
      var saved := Save(apps[id], apps[id].(status := Approved, approvedAt := Some(now)), now);
      Reply(apps[id := saved], Ok(saved))
  }

  /** `rejectApplication`: a missing id is a 404 with no change; otherwise
      the status becomes `Rejected`, whatever the current status. No
      rejection instant is recorded and `approvedAt` is kept. */
  function RejectApplication(apps: Applications, id: Id, now: Timestamp)
    : (r: Reply<Applications, Application>)
    ensures r.response.Ok? || r.response.NotFound?
    ensures r.response.NotFound? <==> id !in apps
    ensures r.response.NotFound? ==> r.store == apps
    ensures r.response.Ok? ==>
              && r.store == apps[id := r.response.value]
              && r.response.value.status == Rejected
              && r.response.value.approvedAt == apps[id].approvedAt
              && SameApplicant(apps[id], r.response.value)
              && SameFee(apps[id], r.response.value)
              && (apps[id].status != Rejected ==> r.response.value.updatedAt == now)
              && (apps[id].status == Rejected ==> r.response.value == apps[id])
  {
    if id !in apps then Reply(apps, NotFound)
    else
      var saved := Save(apps[id], apps[id].(status := Rejected), now);
      Reply(apps[id := saved], Ok(saved))
  }

  /** `payApplicationFee`, after the provider call: `intent` is the created
      payment intent, or `None` when the provider threw, in which case
      nothing is looked up or written. When the application exists its fee
      status becomes `Paid` and the payment details are recorded; `paidAt`
      is never set. The client secret is returned whether or not the
      application exists. */
  function PayApplicationFee(apps: Applications, applicationId: Option<Id>, amount: Option<int>,
                             caller: Caller, intent: Option<PaymentIntent>, now: Timestamp)
    : (r: Reply<Applications, string>)
    ensures r.response.ProviderFailed? <==> intent.None?
    ensures intent.Some? ==> r.response == Ok(intent.value.clientSecret)
    ensures !(intent.Some? && applicationId.Some? && applicationId.value in apps) ==> r.store == apps
    ensures intent.Some? && applicationId.Some? && applicationId.value in apps ==>
              var before := apps[applicationId.value];
              && applicationId.value in r.store
              && var after := r.store[applicationId.value];
              && r.store == apps[applicationId.value := after]
              && after.applicationFeeStatus == Paid
              && after.paymentDetails == Some(PaymentDetails(intent.value.id, caller.email, amount))
              && after.paidAt == before.paidAt
              && after.status == before.status
              && after.approvedAt == before.approvedAt
              && SameApplicant(before, after)
              && var paidAlready := before.applicationFeeStatus == Paid
                                    && before.paymentDetails == after.paymentDetails;
              && (paidAlready ==> after == before)
              && (!paidAlready ==> after.updatedAt == now)
  {
    if intent.None? then Reply(apps, ProviderFailed)
    else if applicationId.Some? && applicationId.value in apps then
      var id := applicationId.value;
      var details := PaymentDetails(intent.value.id, caller.email, amount);
      var saved := Save(apps[id], apps[id].(applicationFeeStatus := Paid,
                                            paymentDetails := Some(details)), now);
      Reply(apps[id := saved], Ok(intent.value.clientSecret))
    else
      Reply(apps, Ok(intent.value.clientSecret))
  }

  /** Who calls `applyLoan`, and any `loan` key in the body, make no
      difference: the applicant is not recorded and `loan` is overwritten. */
  lemma ApplyIgnoresCallerAndLoanKey(apps: Applications, newId: Id, body: ApplicationBody,
                                     c1: Caller, c2: Caller, loan: Option<Id>, now: Timestamp)
    ensures ApplyLoan(apps, newId, body, c1, now) == ApplyLoan(apps, newId, body.(loan := loan), c2, now)
  {
  }

  /** A body that names its loan under `loan` instead of `loanId` is
      refused, however complete it is otherwise. */
  lemma LoanKeyAloneIsRefused(apps: Applications, newId: Id, body: ApplicationBody,
                              caller: Caller, now: Timestamp)
    requires body.loan.Some? && body.loanId.None?
    ensures ApplyLoan(apps, newId, body, caller, now).response.Invalid?
    ensures "loan" in ApplyLoan(apps, newId, body, caller, now).response.paths
    ensures ApplyLoan(apps, newId, body, caller, now).store == apps
  {
  }

  /** The body spread reaches every schema path, so an applicant can create
      an application that is already approved and paid, with no payment and
      no manager involved. */
  lemma BodyMaySetDecisionAndFee(apps: Applications, newId: Id, body: ApplicationBody,
                                 caller: Caller, now: Timestamp)
    requires newId !in apps
    requires body.loanId.Some? && body.borrower.Some?
    requires body.status == Some("Approved") && body.applicationFeeStatus == Some("Paid")
    ensures var r := ApplyLoan(apps, newId, body, caller, now);
            && r.response.Ok?
            && r.store[newId].status == Approved
            && r.store[newId].applicationFeeStatus == Paid
            && r.store[newId].paymentDetails == body.paymentDetails
  {
    assert ParseStatus("Approved") == Some(Approved);
    assert ParseFeeStatus("Paid") == Some(Paid);
  }

  /** Approve and reject have no guard on the current status: a rejected
      application can be approved and an approved one rejected, and the
      rejection keeps the approval instant. */
  lemma DecisionsCanBeReversed(apps: Applications, id: Id, t1: Timestamp, t2: Timestamp)
    requires id in apps
    ensures var s := RejectApplication(apps, id, t1).store;
            ApproveApplication(s, id, t2).store[id].status == Approved
    ensures var s := ApproveApplication(apps, id, t1).store;
            && RejectApplication(s, id, t2).store[id].status == Rejected
            && RejectApplication(s, id, t2).store[id].approvedAt == Some(t1)
  {
  }

  /** Rejecting twice is the same as rejecting once, at any later instant:
      the second save modifies nothing, so not even `updatedAt` moves. */
  lemma {:induction false} RejectIsIdempotent(apps: Applications, id: Id, t1: Timestamp, t2: Timestamp)
    ensures var first := RejectApplication(apps, id, t1);
            RejectApplication(first.store, id, t2) == first
  {
    if id in apps {
      var first := RejectApplication(apps, id, t1);
      var doc := first.store[id];
      assert doc.status == Rejected;
      assert doc.(status := Rejected) == doc;
      assert !Modified(doc, doc.(status := Rejected));
      assert first.store[id := doc] == first.store;
    }
  }

  /** Approving twice at the same instant is the same as approving once. */
  lemma {:induction false} ApproveIsIdempotentAtOneInstant(apps: Applications, id: Id, now: Timestamp)
    ensures var first := ApproveApplication(apps, id, now);
            ApproveApplication(first.store, id, now) == first
  {
    if id in apps {
      var first := ApproveApplication(apps, id, now);
      var doc := first.store[id];
      assert doc.(status := Approved, approvedAt := Some(now)) == doc;
      assert !Modified(doc, doc.(status := Approved, approvedAt := Some(now)));
      assert first.store[id := doc] == first.store;
    }
  }

  /** There is no guard against a second confirmation: paying again for an
      already paid application replaces the recorded transaction with the
      new intent's, and the fee status stays `Paid`. */
  lemma RepaymentReplacesDetails(apps: Applications, id: Id, amount: Option<int>, caller: Caller,
                                 i1: PaymentIntent, i2: PaymentIntent, t1: Timestamp, t2: Timestamp)
    requires id in apps
    ensures var s1 := PayApplicationFee(apps, Some(id), amount, caller, Some(i1), t1).store;
            var s2 := PayApplicationFee(s1, Some(id), amount, caller, Some(i2), t2).store;
            && s2[id].applicationFeeStatus == Paid
            && s2[id].paymentDetails == Some(PaymentDetails(i2.id, caller.email, amount))
  {
  }
}

=== FILE: application_lifecycle.dfy ===
/** Arbitrary sequences of application requests, and what survives them:
    no application is ever removed, the applicant's paths never change, a
    paid fee is never reset to unpaid, an approval instant once recorded is
    never cleared, and the `paidAt` of an existing application is never
    written. */
module ApplicationLifecycle {
  import opened Common
  import opened ApplicationModel
  import opened ApplicationController

  /** One request to the application handlers. `Apply` is the handler as
      written; `ApplyCorrected` is the corrected handler that records the
      caller as borrower. Both may occur in one sequence. */
  datatype Request =
    | Apply(newId: Id, body: ApplicationBody, caller: Caller, now: Timestamp)
    | ApplyCorrected(newId: Id, body: ApplicationBody, caller: Caller, now: Timestamp)
    | Approve(id: Id, now: Timestamp)
    | Reject(id: Id, now: Timestamp)
    | Pay(applicationId: Option<Id>, amount: Option<int>, caller: Caller,
          intent: Option<PaymentIntent>, now: Timestamp)

  /** Whatever collection the written `applyLoan` leaves behind, the
      corrected handler leaves behind for some caller and body: the one
      whose id is the body's `borrower`, or a body without a loan when the
      written handler refuses. */
  lemma WrittenApplyIsCovered(apps: Applications, newId: Id, body: ApplicationBody, caller: Caller,
                              now: Timestamp)
    ensures exists c: Caller, b: ApplicationBody ::
              ApplyLoanAsIntended(apps, newId, b, c, now).store == ApplyLoan(apps, newId, body, caller, now).store
  {
    if body.borrower.Some? {
      var c := Caller(body.borrower.value, caller.email);
      assert body.(borrower := Some(c.id)) == body;
      assert ApplyLoanAsIntended(apps, newId, body, c, now).store == ApplyLoan(apps, newId, body, caller, now).store;
    } else {
      var b := body.(loanId := None);
      assert ApplyLoanAsIntended(apps, newId, b, caller, now).store == ApplyLoan(apps, newId, body, caller, now).store;
    }
  }

  /** The collection after one request. */
  function Step(apps: Applications, req: Request): Applications {
    match req
    case Apply(newId, body, caller, now) => ApplyLoan(apps, newId, body, caller, now).store
    case ApplyCorrected(newId, body, caller, now) => ApplyLoanAsIntended(apps, newId, body, caller, now).store
    case Approve(id, now) => ApproveApplication(apps, id, now).store
    case Reject(id, now) => RejectApplication(apps, id, now).store
    case Pay(appId, amount, caller, intent, now) =>
      PayApplicationFee(apps, appId, amount, caller, intent, now).store
  }

  /** The collection after the requests, handled one after another. */
  function Run(apps: Applications, reqs: seq<Request>): Applications
    decreases |reqs|
  {
    if |reqs| == 0 then apps else Run(Step(apps, reqs[0]), reqs[1..])
  }

  /** `b` is a later version of the application `a`. */
  predicate Evolves(a: Application, b: Application) {
    && SameApplicant(a, b)
    && b.paidAt == a.paidAt
    && (a.applicationFeeStatus == Paid ==> b.applicationFeeStatus == Paid)
    && (a.approvedAt.Some? ==> b.approvedAt.Some?)
  }

  /** Every application of `before` is still in `after`, as a later version. */
  predicate Persists(before: Applications, after: Applications) {
    forall id :: id in before ==> id in after && Evolves(before[id], after[id])
  }

  /** One request keeps every existing application, as a later version. */
  lemma StepPersists(apps: Applications, req: Request)
    ensures Persists(apps, Step(apps, req))
  {
  }

  /** Any sequence of requests keeps every existing application, as a later
      version of itself. */
  lemma {:induction false} RunPersists(apps: Applications, reqs: seq<Request>)
    ensures Persists(apps, Run(apps, reqs))
    decreases |reqs|
  {
    if |reqs| > 0 {
      var mid := Step(apps, reqs[0]);
      StepPersists(apps, reqs[0]);
      RunPersists(mid, reqs[1..]);
      assert Run(apps, reqs) == Run(mid, reqs[1..]);
    }
  }

  /** No handler assigns `Unpaid`: once an application's fee is paid it
      stays paid through any sequence of requests. */
  lemma PaidStaysPaid(apps: Applications, reqs: seq<Request>, id: Id)
    requires id in apps && apps[id].applicationFeeStatus == Paid
    ensures id in Run(apps, reqs)
    ensures Run(apps, reqs)[id].applicationFeeStatus == Paid
  {
    RunPersists(apps, reqs);
  }

  /** Only a payment naming an existing application marks it paid: an
      application already stored unpaid stays unpaid through any request
      sequence that holds no payment for its id. (A new application can be
      created paid through its body; see `BodyMaySetDecisionAndFee`.) */
  lemma {:induction false} OnlyPaymentMarksPaid(apps: Applications, reqs: seq<Request>, id: Id)
    requires id in apps && apps[id].applicationFeeStatus == Unpaid
    requires forall i :: 0 <= i < |reqs| ==> !(reqs[i].Pay? && reqs[i].applicationId == Some(id))
    ensures id in Run(apps, reqs)
    ensures Run(apps, reqs)[id].applicationFeeStatus == Unpaid
    decreases |reqs|
  {
    if |reqs| > 0 {
      var mid := Step(apps, reqs[0]);
      StepPersists(apps, reqs[0]);
      assert mid[id].applicationFeeStatus == Unpaid;
      assert forall i :: 0 <= i < |reqs[1..]| ==> reqs[1..][i] == reqs[i + 1];
      OnlyPaymentMarksPaid(mid, reqs[1..], id);
      assert Run(apps, reqs) == Run(mid, reqs[1..]);
    }
  }
}

=== FILE: application_model.dfy ===
/** The `LoanApplication` document: its paths, the two closed enumerations
    with their defaults, the required references, the automatic timestamps,
    and what Mongoose does when a document is created or saved. */
module ApplicationModel {
  import opened Common

  /** The `status` enumeration; `Pending` is its default. */
  datatype Status = Pending | Approved | Rejected

  /** The `applicationFeeStatus` enumeration; `Unpaid` is its default. */
  datatype FeeStatus = Paid | Unpaid

  const DefaultStatus: Status := Pending
  const DefaultFeeStatus: FeeStatus := Unpaid

  /** The string stored for each status. */
  function StatusName(s: Status): string {
    match s
    case Pending => "Pending"
    case Approved => "Approved"
    case Rejected => "Rejected"
  }

  /** The string stored for each fee status. */
  function FeeStatusName(f: FeeStatus): string {
    match f
    case Paid => "Paid"
    case Unpaid => "Unpaid"
  }

  /** The enum validator of `status`: accepts exactly the three names. */
  function ParseStatus(s: string): (r: Option<Status>)
    ensures r.Some? ==> StatusName(r.value) == s
  {
    if s == "Pending" then Some(Pending)
    else if s == "Approved" then Some(Approved)
    else if s == "Rejected" then Some(Rejected)
    else None
  }

  /** The enum validator of `applicationFeeStatus`: accepts exactly the two names. */
  function ParseFeeStatus(s: string): (r: Option<FeeStatus>)
    ensures r.Some? ==> FeeStatusName(r.value) == s
  {
    if s == "Paid" then Some(Paid)
    else if s == "Unpaid" then Some(Unpaid)
    else None
  }

  /** A string passes the `status` enum validator exactly when it is the name
      of a status, and then it parses back to that status. */
  lemma StatusEnumIsClosed(s: string, st: Status)
    ensures ParseStatus(s) == Some(st) <==> s == StatusName(st)
    ensures ParseStatus(s).Some? <==> s in {"Pending", "Approved", "Rejected"}
  {
  }

  /** A string passes the `applicationFeeStatus` enum validator exactly when
      it is the name of a fee status, and then it parses back to it. */
  lemma FeeStatusEnumIsClosed(s: string, f: FeeStatus)
    ensures ParseFeeStatus(s) == Some(f) <==> s == FeeStatusName(f)
    ensures ParseFeeStatus(s).Some? <==> s in {"Paid", "Unpaid"}
  {
  }

  /** The free-form applicant paths, copied from the request body and never
      touched by any handler afterwards. */
  datatype ApplicantInfo = ApplicantInfo(
    firstName: Option<string>,
    lastName: Option<string>,
    contactNumber: Option<string>,
    nationalId: Option<string>,
    incomeSource: Option<string>,
    monthlyIncome: Option<int>,
    amount: Option<int>,
    reason: Option<string>,
    address: Option<string>,
    extraNotes: Option<string>)

  /** The object stored in the untyped `paymentDetails` path by the fee
      payment handler. */
  datatype PaymentDetails = PaymentDetails(transactionId: string, email: string, amount: Option<int>)

  /** A stored application. `loan` and `borrower` are required, so a stored
      document always has both; the enumerations are closed by their types. */
  datatype Application = Application(
    loan: Id,
    borrower: Id,
    info: ApplicantInfo,
    status: Status,
    applicationFeeStatus: FeeStatus,
    approvedAt: Option<Timestamp>,
    paidAt: Option<Timestamp>,
    paymentDetails: Option<PaymentDetails>,
    createdAt: Timestamp,
    updatedAt: Timestamp)

  /** The object handed to `LoanApplication.create`, restricted to the
      schema's paths (strict mode discards every other key). The enumerated
      paths are raw strings here because a request body may carry any value. */
  datatype Draft = Draft(
    loan: Option<Id>,
    borrower: Option<Id>,
    info: ApplicantInfo,
    status: Option<string>,
    applicationFeeStatus: Option<string>,
    approvedAt: Option<Timestamp>,
    paidAt: Option<Timestamp>,
    paymentDetails: Option<PaymentDetails>)

  /** The paths whose validators reject the draft: a required reference that
      is absent, or an enumerated path holding a string outside its enum. */
  function ValidationErrors(d: Draft): (errs: set<string>)
    ensures "loan" in errs <==> d.loan.None?
    ensures "borrower" in errs <==> d.borrower.None?
    ensures "status" in errs <==> d.status.Some? && ParseStatus(d.status.value).None?
    ensures "applicationFeeStatus" in errs <==>
              d.applicationFeeStatus.Some? && ParseFeeStatus(d.applicationFeeStatus.value).None?
    ensures errs <= {"loan", "borrower", "status", "applicationFeeStatus"}
  {
    (if d.loan.None? then {"loan"} else {})
    + (if d.borrower.None? then {"borrower"} else {})
    + (if d.status.Some? && ParseStatus(d.status.value).None? then {"status"} else {})
    + (if d.applicationFeeStatus.Some? && ParseFeeStatus(d.applicationFeeStatus.value).None?
       then {"applicationFeeStatus"} else {})
  }

  /** Building a new document from a draft at instant `now`: defaults fill
      the absent enumerated paths, and both timestamps are `now`. Validation
      failure yields `Invalid` naming every failing path. */
  function Instantiate(d: Draft, now: Timestamp): (r: Response<Application>)
    ensures r.Ok? || r.Invalid?
    ensures r.Invalid? <==> (d.loan.None? || d.borrower.None?
                             || (d.status.Some? && ParseStatus(d.status.value).None?)
                             || (d.applicationFeeStatus.Some?
                                 && ParseFeeStatus(d.applicationFeeStatus.value).None?))
    ensures r.Invalid? ==> r.paths == ValidationErrors(d) && r.paths != {}
    ensures r.Ok? ==>
              && d.loan == Some(r.value.loan)
              && d.borrower == Some(r.value.borrower)
              && r.value.info == d.info
              && (d.status.None? ==> r.value.status == DefaultStatus)
              && (d.status.Some? ==> StatusName(r.value.status) == d.status.value)
              && (d.applicationFeeStatus.None? ==> r.value.applicationFeeStatus == DefaultFeeStatus)
              && (d.applicationFeeStatus.Some? ==>
                    FeeStatusName(r.value.applicationFeeStatus) == d.applicationFeeStatus.value)
              && r.value.approvedAt == d.approvedAt
              && r.value.paidAt == d.paidAt
              && r.value.paymentDetails == d.paymentDetails
              && r.value.createdAt == now
              && r.value.updatedAt == now
  {
    var errs := ValidationErrors(d);
    if errs != {} then
      Invalid(errs)
    else
      var status := if d.status.Some? then ParseStatus(d.status.value).value else DefaultStatus;
      var fee := if d.applicationFeeStatus.Some?
                 then ParseFeeStatus(d.applicationFeeStatus.value).value
                 else DefaultFeeStatus;
      Ok(Application(d.loan.value, d.borrower.value, d.info, status, fee,
                     d.approvedAt, d.paidAt, d.paymentDetails, now, now))
  }

  /** `before` and `after` differ in some path other than `updatedAt`. */
  predicate Modified(before: Application, after: Application) {
    after.(updatedAt := before.updatedAt) != before
  }

  /** `document.save()` of `after`, which was loaded as `before`, at instant
      `now`: the timestamps plugin refreshes `updatedAt` when some path was
      modified, and a save that modifies nothing leaves the document as it
      was. `createdAt` is immutable. */
  function Save(before: Application, after: Application, now: Timestamp): (r: Application)
    requires after.createdAt == before.createdAt
    ensures r.(updatedAt := after.updatedAt) == after
    ensures r.createdAt == before.createdAt
    ensures r.updatedAt == if Modified(before, after) then now else before.updatedAt
  {
    if Modified(before, after) then after.(updatedAt := now) else before
  }
}

=== FILE: common.dfy ===
/** Vocabulary shared by the loan and loan-application registries: document
    identifiers, timestamps, the outcome of a request handler, and the pair of
    (store after the request, outcome) that every handler produces. */
module Common {

  /** A MongoDB ObjectId. Only equality matters, so it is an opaque number. */
  type Id = nat

  /** A wall-clock instant in milliseconds. The clock is never read by the
      model; each request receives its instant as a parameter. */
  type Timestamp = nat

  /** A value that may be absent: an omitted request-body field, an unset
      optional document path, or a `null` query result. */
  datatype Option<+T> = None | Some(value: T) {

    /** The carried value, or `default` when absent. */
    function GetOr(default: T): T {
      match this
      case Some(v) => v
      case None => default
    }
  }

  /** The authenticated user the route middleware attaches to a request. */
  datatype Caller = Caller(id: Id, email: string)

  /** How a handler answers.
      - `Ok` carries the JSON body of a successful response;
      - `NotFound` is the explicit 404 some handlers send;
      - `Invalid` is a Mongoose ValidationError naming the failing paths;
      - `DuplicateKey` is the driver's duplicate `_id` error on insert;
      - `ProviderFailed` is an exception thrown by the payment provider.
      The last three all surface as HTTP 500 with the error message. */
  datatype Response<+T> =
    | Ok(value: T)
    | NotFound
    | Invalid(paths: set<string>)
    | DuplicateKey
    | ProviderFailed

  /** The collection after a request, together with the response. */
  datatype Reply<S, +T> = Reply(store: S, response: Response<T>)

  /** Every key other than `id` is present in `after` exactly when it is
      present in `before`, and maps to the same document. */
  ghost predicate AgreeExcept<V>(before: map<Id, V>, after: map<Id, V>, id: Id) {
    && (forall k :: k != id && k in before ==> k in after && after[k] == before[k])
    && (forall k :: k != id && k in after ==> k in before)
  }
}

=== FILE: loan_controller.dfy ===
/** The loan-product request handlers as pure functions from the collection
    and the request to the collection afterwards and the response: create,
    list newest first, update by merge, delete, and fetch by id. None of them
    consults the caller's role or ownership. */
module LoanController {
  import opened Common
  import opened LoanModel

  /** The `loans` collection. */
  type Loans = map<Id, Loan>

  /** A listed loan: its id together with the stored document. */
  type Entry = (Id, Loan)

  /** `addLoan`: the body's paths with `createdBy` forced to the caller's
      id, validated and inserted under the fresh ObjectId `newId`. */
  function AddLoan(loans: Loans, newId: Id, body: LoanFields, caller: Caller, now: Timestamp)
    : (r: Reply<Loans, Loan>)
    ensures r.response.Ok? || r.response.Invalid? || r.response.DuplicateKey?
    ensures !r.response.Ok? ==> r.store == loans
    ensures r.response.Invalid? <==> !RequiredString(body.title)
    ensures r.response.Invalid? ==> r.response.paths == {"title"}
    ensures r.response.DuplicateKey? ==> newId in loans
    ensures r.response.Ok? ==> Instantiate(body.(createdBy := Some(caller.id)), now) == Ok(r.response.value)
    ensures r.response.Ok? ==>
              && newId !in loans
              && r.store == loans[newId := r.response.value]
              && r.response.value.createdBy == Some(caller.id)
              && Some(r.response.value.title) == body.title
              && r.response.value.description == body.description
              && r.response.value.category == body.category
              && r.response.value.interest == body.interest
              && r.response.value.maxLimit == body.maxLimit
              && r.response.value.emiPlans == body.emiPlans.GetOr([])
              && r.response.value.images == body.images.GetOr([])
              && r.response.value.showOnHome == body.showOnHome.GetOr(false)
              && r.response.value.createdAt == now
              && r.response.value.updatedAt == now
  {
    match Instantiate(body.(createdBy := Some(caller.id)), now)
    case Ok(loan) =>
      if newId in loans then Reply(loans, DuplicateKey) else Reply(loans[newId := loan], Ok(loan))
    case _ => Reply(loans, Invalid({"title"}))
  }

  /** `getLoanById`: the stored document, or a 404 for a missing id. */
  function GetLoanById(loans: Loans, id: Id): (r: Response<Loan>)
    ensures r.Ok? || r.NotFound?
    ensures r.NotFound? <==> id !in loans
    ensures r.Ok? ==> id in loans && r.value == loans[id]
  {
    if id in loans then Ok(loans[id]) else NotFound
  }

  /** `updateLoan`: merge the patch into the stored document and answer with
      the document after the update. A missing id answers `null` with no
      404 and no change. The caller is not consulted. */
  function UpdateLoan(loans: Loans, id: Id, patch: LoanFields, caller: Caller, now: Timestamp)
    : (r: Reply<Loans, Option<Loan>>)
    ensures r.response.Ok?
    ensures r.response.value.None? <==> id !in loans
    ensures id !in loans ==> r.store == loans
    ensures id in loans ==>
              && r.store == loans[id := r.response.value.value]
              && Overwrites(loans[id], patch, r.response.value.value)
              && r.response.value.value.updatedAt == now
  {
    if id !in loans then Reply(loans, Ok(None))
    else
      var updated := Merge(loans[id], patch, now);
      Reply(loans[id := updated], Ok(Some(updated)))
  }

  /** `deleteLoan`: remove the document with that id, if any, and report
      success either way. The caller is not consulted. */
  function DeleteLoan(loans: Loans, id: Id, caller: Caller): (r: Reply<Loans, ()>)
    ensures r.response.Ok?
    ensures id !in r.store
    ensures r.store.Keys == loans.Keys - {id}
    ensures AgreeExcept(loans, r.store, id)
  {
    Reply(loans - {id}, Ok(()))
  }

  /** Descending by `createdAt`: the newest loan comes first. */
  predicate NewestFirst(r: seq<Entry>) {
    forall i, j :: 0 <= i < j < |r| ==> r[i].1.createdAt >= r[j].1.createdAt
  }

  /** No id is listed twice. */
  predicate DistinctIds(r: seq<Entry>) {
    forall i, j :: 0 <= i < j < |r| ==> r[i].0 != r[j].0
  }

  /** `r` lists exactly the documents of `loans`, each once, with its id. */
  ghost predicate ListsExactly(r: seq<Entry>, loans: Loans) {
    && DistinctIds(r)
    && (forall i :: 0 <= i < |r| ==> r[i].0 in loans && loans[r[i].0] == r[i].1)
    && (forall id :: id in loans ==> exists i :: 0 <= i < |r| && r[i].0 == id)
  }

  /** Insert `e` into a newest-first listing, after every entry at least as
      new as it. */
  function InsertNewestFirst(r: seq<Entry>, e: Entry): (r': seq<Entry>)
    requires NewestFirst(r)
    ensures NewestFirst(r')
    ensures |r'| == |r| + 1
    ensures forall x :: x in r' <==> x in r || x == e
    ensures multiset(r') == multiset(r) + multiset{e}
  {
    if |r| == 0 then [e]
    else if r[0].1.createdAt >= e.1.createdAt then
      var rest := InsertNewestFirst(r[1..], e);
      HeadIsNewest(r, e, rest);
      ConsNewestFirst(r[0], rest);
      ConsKeepsContents(r, e, rest);
      [r[0]] + rest
    else
      assert multiset([e] + r) == multiset(r) + multiset{e};
      [e] + r
  }

  /** Every entry of the tail, and the entry inserted after the head, is no
      newer than the head of a newest-first listing. */
  lemma HeadIsNewest(r: seq<Entry>, e: Entry, rest: seq<Entry>)
    requires NewestFirst(r) && |r| > 0 && r[0].1.createdAt >= e.1.createdAt
    requires forall x :: x in rest <==> x in r[1..] || x == e
    ensures forall k :: 0 <= k < |rest| ==> rest[k].1.createdAt <= r[0].1.createdAt
  {
    forall k | 0 <= k < |rest|
      ensures rest[k].1.createdAt <= r[0].1.createdAt
    {
      assert rest[k] in rest;
      if rest[k] != e {
        var j :| 0 <= j < |r[1..]| && r[1..][j] == rest[k];
        assert r[j + 1] == rest[k];
      }
    }
  }

  /** Putting an entry at least as new as every other in front keeps a
      listing newest first. */
  lemma ConsNewestFirst(x: Entry, s: seq<Entry>)
    requires NewestFirst(s)
    requires forall k :: 0 <= k < |s| ==> s[k].1.createdAt <= x.1.createdAt
    ensures NewestFirst([x] + s)
  {
  }

  /** Keeping the head and inserting into the tail adds exactly `e`. */
  lemma ConsKeepsContents(r: seq<Entry>, e: Entry, rest: seq<Entry>)
    requires |r| > 0
    requires forall x :: x in rest <==> x in r[1..] || x == e
    requires multiset(rest) == multiset(r[1..]) + multiset{e}
    ensures forall x :: x in [r[0]] + rest <==> x in r || x == e
    ensures multiset([r[0]] + rest) == multiset(r) + multiset{e}
  {
    assert r == [r[0]] + r[1..];
  }

  /** Inserting an entry whose id is not yet listed keeps the ids distinct. */
  lemma {:induction false} InsertKeepsIdsDistinct(r: seq<Entry>, e: Entry)
    requires NewestFirst(r) && DistinctIds(r)
    requires forall i :: 0 <= i < |r| ==> r[i].0 != e.0
    ensures DistinctIds(InsertNewestFirst(r, e))
  {
    if |r| > 0 && r[0].1.createdAt >= e.1.createdAt {
      var rest := InsertNewestFirst(r[1..], e);
      InsertKeepsIdsDistinct(r[1..], e);
      forall k | 0 <= k < |rest|
        ensures rest[k].0 != r[0].0
      {
        assert rest[k] in rest;
        if rest[k] != e {
          var j :| 0 <= j < |r[1..]| && r[1..][j] == rest[k];
          assert r[j + 1] == rest[k];
        }
      }
      assert InsertNewestFirst(r, e) == [r[0]] + rest;
    }
  }

  /** The listing built so far: newest first, each id once, every entry the
      stored document of its id, and every id outside `pending` listed. */
  ghost predicate ListedExcept(r: seq<Entry>, loans: Loans, pending: set<Id>) {
    && NewestFirst(r)
    && DistinctIds(r)
    && (forall i :: 0 <= i < |r| ==> r[i].0 in loans && r[i].0 !in pending && loans[r[i].0] == r[i].1)
    && (forall id :: id in loans && id !in pending ==> exists i :: 0 <= i < |r| && r[i].0 == id)
  }

  /** Listing one more pending loan keeps the listing built so far. */
  lemma ListOneMore(r: seq<Entry>, loans: Loans, pending: set<Id>, id: Id)
    requires pending <= loans.Keys && id in pending
    requires ListedExcept(r, loans, pending)
    ensures ListedExcept(InsertNewestFirst(r, (id, loans[id])), loans, pending - {id})
  {
    var r' := InsertNewestFirst(r, (id, loans[id]));
    InsertKeepsIdsDistinct(r, (id, loans[id]));
    forall i | 0 <= i < |r'|
      ensures r'[i] in r || r'[i] == (id, loans[id])
    {
      assert r'[i] in r';
    }
    forall k | k in loans && k !in pending - {id}
      ensures exists i :: 0 <= i < |r'| && r'[i].0 == k
    {
      if k == id {
        assert (id, loans[id]) in r';
      } else {
        var i :| 0 <= i < |r| && r[i].0 == k;
        assert r[i] in r';
      }
    }
  }

  /** `getAllLoans`: every stored loan exactly once, newest first. Loans
      created at the same instant may appear in any order. */
  method GetAllLoans(loans: Loans) returns (r: seq<Entry>)
    ensures ListsExactly(r, loans)
    ensures NewestFirst(r)
  {
    r := [];
    var pending := loans.Keys;
    while pending != {}
      invariant pending <= loans.Keys
      invariant ListedExcept(r, loans, pending)
      decreases pending
    {
      var id :| id in pending;
      ListOneMore(r, loans, pending, id);
      r := InsertNewestFirst(r, (id, loans[id]));
      pending := pending - {id};
    }
  }

  /** A created loan can be fetched back unchanged under its new id. */
  lemma AddThenGet(loans: Loans, newId: Id, body: LoanFields, caller: Caller, now: Timestamp)
    requires AddLoan(loans, newId, body, caller, now).response.Ok?
    ensures var r := AddLoan(loans, newId, body, caller, now);
            GetLoanById(r.store, newId) == Ok(r.response.value)
  {
  }

  /** Fetching after an update yields the document the update answered. */
  lemma UpdateThenGet(loans: Loans, id: Id, patch: LoanFields, caller: Caller, now: Timestamp)
    requires id in loans
    ensures var r := UpdateLoan(loans, id, patch, caller, now);
            GetLoanById(r.store, id) == Ok(r.response.value.value)
  {
  }

  /** After a delete the id is not found, and deleting again changes nothing. */
  lemma DeleteIsIdempotent(loans: Loans, id: Id, caller: Caller, other: Caller)
    ensures var s := DeleteLoan(loans, id, caller).store;
            && GetLoanById(s, id) == NotFound
            && DeleteLoan(s, id, other) == DeleteLoan(loans, id, caller)
  {
    assert (loans - {id}) - {id} == loans - {id};
  }

  /** Updates run no validator: a loan created with a valid title can be
      given an empty one, which creation would have refused. */
  lemma UpdateSkipsValidation(loans: Loans, id: Id, caller: Caller, now: Timestamp)
    requires id in loans
    ensures var patch := NoFields.(title := Some(""));
            && Instantiate(patch, now).Invalid?
            && UpdateLoan(loans, id, patch, caller, now).store[id].title == ""
  {
  }

  /** No ownership or role check: every caller's update and delete of an
      existing loan takes effect, and the outcome does not depend on who
      asks. */
  lemma AnyCallerMayChangeAnyLoan(loans: Loans, id: Id, patch: LoanFields, c1: Caller, c2: Caller,
                                  now: Timestamp)
    ensures UpdateLoan(loans, id, patch, c1, now) == UpdateLoan(loans, id, patch, c2, now)
    ensures DeleteLoan(loans, id, c1) == DeleteLoan(loans, id, c2)
  {
  }
}

=== FILE: loan_model.dfy ===
/** The `Loan` product document: its paths, the required `title`, the
    defaults of `showOnHome` and the two arrays, the automatic timestamps,
    and merge-style updates. */
module LoanModel {
  import opened Common

  /** A stored loan product. `emiPlans` and `images` keep their order. */
  datatype Loan = Loan(
    title: string,
    description: Option<string>,
    category: Option<string>,
    interest: Option<int>,
    maxLimit: Option<int>,
    emiPlans: seq<string>,
    images: seq<string>,
    showOnHome: bool,
    createdBy: Option<Id>,
    createdAt: Timestamp,
    updatedAt: Timestamp)

  /** The schema paths a request body may carry, each possibly absent. The
      same shape serves as the creation input and as an update patch. */
  datatype LoanFields = LoanFields(
    title: Option<string>,
    description: Option<string>,
    category: Option<string>,
    interest: Option<int>,
    maxLimit: Option<int>,
    emiPlans: Option<seq<string>>,
    images: Option<seq<string>>,
    showOnHome: Option<bool>,
    createdBy: Option<Id>)

  /** A patch that supplies no path. */
  const NoFields := LoanFields(None, None, None, None, None, None, None, None, None)

  /** The `required` validator of a String path: the value must be present
      and must not be the empty string. */
  predicate RequiredString(s: Option<string>) {
    s.Some? && |s.value| > 0
  }

  /** Building a new loan from the supplied paths at instant `now`. A missing
      or empty `title` fails validation; `showOnHome` defaults to false, the
      arrays to empty, and the other paths stay unset when absent. */
  function Instantiate(f: LoanFields, now: Timestamp): (r: Response<Loan>)
    ensures r.Ok? || r == Invalid({"title"})
    ensures r.Ok? <==> f.title.Some? && f.title.value != ""
    ensures r.Ok? ==>
              && Some(r.value.title) == f.title
              && r.value.description == f.description
              && r.value.category == f.category
              && r.value.interest == f.interest
              && r.value.maxLimit == f.maxLimit
              && (f.emiPlans.Some? ==> r.value.emiPlans == f.emiPlans.value)
              && (f.emiPlans.None? ==> r.value.emiPlans == [])
              && (f.images.Some? ==> r.value.images == f.images.value)
              && (f.images.None? ==> r.value.images == [])
              && (f.showOnHome.Some? ==> r.value.showOnHome == f.showOnHome.value)
              && (f.showOnHome.None? ==> !r.value.showOnHome)
              && r.value.createdBy == f.createdBy
              && r.value.createdAt == now
              && r.value.updatedAt == now
  {
    if !RequiredString(f.title) then
      Invalid({"title"})
    else
      Ok(Loan(f.title.value, f.description, f.category, f.interest, f.maxLimit,
              f.emiPlans.GetOr([]), f.images.GetOr([]), f.showOnHome.GetOr(false),
              f.createdBy, now, now))
  }

  /** `after` is `before` with every path supplied by `p` overwritten and
      every other path kept, `createdAt` included. */
  predicate Overwrites(before: Loan, p: LoanFields, after: Loan) {
    && after.title == (if p.title.Some? then p.title.value else before.title)
    && after.description == (if p.description.Some? then p.description else before.description)
    && after.category == (if p.category.Some? then p.category else before.category)
    && after.interest == (if p.interest.Some? then p.interest else before.interest)
    && after.maxLimit == (if p.maxLimit.Some? then p.maxLimit else before.maxLimit)
    && after.emiPlans == (if p.emiPlans.Some? then p.emiPlans.value else before.emiPlans)
    && after.images == (if p.images.Some? then p.images.value else before.images)
    && after.showOnHome == (if p.showOnHome.Some? then p.showOnHome.value else before.showOnHome)
    && after.createdBy == (if p.createdBy.Some? then p.createdBy else before.createdBy)
    && after.createdAt == before.createdAt
  }

  /** The update of a stored loan by a patch at instant `now`: a merge, with
      `updatedAt` refreshed. No validator runs, so an empty `title` is
      accepted here although creation refuses it. */
  function Merge(l: Loan, p: LoanFields, now: Timestamp): (r: Loan)
    ensures Overwrites(l, p, r)
    ensures r.updatedAt == now
  {
    Loan(p.title.GetOr(l.title),
         if p.description.Some? then p.description else l.description,
         if p.category.Some? then p.category else l.category,
         if p.interest.Some? then p.interest else l.interest,
         if p.maxLimit.Some? then p.maxLimit else l.maxLimit,
         p.emiPlans.GetOr(l.emiPlans),
         p.images.GetOr(l.images),
         p.showOnHome.GetOr(l.showOnHome),
         if p.createdBy.Some? then p.createdBy else l.createdBy,
         l.createdAt,
         now)
  }

  /** The patch that applies `p` and then `q`: a path of `q` wins over the
      same path of `p`. */
  function Combine(p: LoanFields, q: LoanFields): LoanFields {
    LoanFields(
      if q.title.Some? then q.title else p.title,
      if q.description.Some? then q.description else p.description,
      if q.category.Some? then q.category else p.category,
      if q.interest.Some? then q.interest else p.interest,
      if q.maxLimit.Some? then q.maxLimit else p.maxLimit,
      if q.emiPlans.Some? then q.emiPlans else p.emiPlans,
      if q.images.Some? then q.images else p.images,
      if q.showOnHome.Some? then q.showOnHome else p.showOnHome,
      if q.createdBy.Some? then q.createdBy else p.createdBy)
  }

  /** Two merges in a row are one merge of the combined patch. */
  lemma MergeComposes(l: Loan, p: LoanFields, q: LoanFields, t1: Timestamp, t2: Timestamp)
    ensures Merge(Merge(l, p, t1), q, t2) == Merge(l, Combine(p, q), t2)
  {
  }

  /** Repeating an update at the same instant changes nothing more. */
  lemma MergeIsIdempotent(l: Loan, p: LoanFields, now: Timestamp)
    ensures Merge(Merge(l, p, now), p, now) == Merge(l, p, now)
  {
  }

  /** An update supplying no path changes only `updatedAt`. */
  lemma EmptyPatchTouchesOnlyUpdatedAt(l: Loan, now: Timestamp)
    ensures Merge(l, NoFields, now) == l.(updatedAt := now)
  {
  }

  /** Merging and instantiating agree: a loan created from some paths and
      then patched holds exactly what creating it from the combined paths
      would hold, as long as the combined title is still valid. */
  lemma InstantiateThenMerge(f: LoanFields, p: LoanFields, t1: Timestamp, t2: Timestamp)
    requires Instantiate(f, t1).Ok?
    requires p.title.Some? ==> p.title.value != ""
    ensures Instantiate(Combine(f, p), t1).Ok?
    ensures Merge(Instantiate(f, t1).value, p, t2) == Instantiate(Combine(f, p), t1).value.(updatedAt := t2)
  {
  }
}
